=== FILE: README.md ===
# Slack alert relay: a Dafny model of its decision core

The relay is a WebSocket server. Clients send JSON alerts with a `message`, a `type` (one of `success`, `warning`, `error`) and `details`. For each alert the server answers with one of four fixed acknowledgements. It forwards alerts with an accepted type to a Slack webhook unless an alert with the same key was accepted within the last `duplicateWaitTime` milliseconds. The recently accepted keys live in a process-wide set. Each key deletes itself through a timer.

The project models this core as pure functions:

- `wrappers.dfy`: `Option`.
- `js_values.dfy`: the JavaScript semantics the server depends on.
  - values as `JSON.parse` produces them, plus `undefined`;
  - property reads, including the TypeError on `undefined`/`null`;
  - truthiness for the `||` defaults;
  - the string conversion a template literal performs;
  - `parseInt(s, 10)`.
- `config.dfy`: the wait time read from `DUPLICATE_WAIT_TIME`, and the delay the runtime's `setTimeout` actually uses.
- `dedup_cache.dfy`: `recentAlerts` together with its pending removals.
  - `CheckAndRecord` is `isDuplicateAlert` with explicit time.
  - `Tick` is the timer phase of the event loop.
  - `Run` is a sequence of both.
  - `SubmitBurst` handles many alerts arriving at the same instant.
- `notify.dfy`: the notification that `sendSlackAlert` builds (colour, "Type" and "Details" fields). Whether the webhook accepts it is an input.
- `handler.dfy`: the WebSocket `message` handler, as one step from the cache before a frame to the acknowledgement, the send and the cache after.
  - `Handle` follows the code as written.
  - `HandleIntended` computes the key from the parsed alert.

The handler runs synchronously up to the send, so on the single-threaded event loop the decision and its cache update are atomic: no other frame's handling interleaves with them. Which acknowledgement follows does not depend on the send's result. The handler is therefore modelled as one pure step. The time at which an acknowledgement is delivered is not part of that step (see "## Left out").

## Model

| member | source | states |
|---|---|---|
| JsValues.Property | slack_alert_server.js:89 | reading a property of `undefined` or `null` fails (the caught TypeError); any other non-object yields `undefined` |
| JsValues.Truthy | slack_alert_server.js:56 | the truthiness test behind the defaults here and at lines 17, 42 and 51: a value is falsy exactly when it is `undefined`, `null`, `false`, `0` or the empty string; arrays and objects are always truthy |
| JsValues.ToText | slack_alert_server.js:69 | the template-literal conversion throws exactly for an object with its own `toString` property (never callable after `JSON.parse`) or an array holding such a value; strings print as themselves, integers in decimal, `undefined` as "undefined" |
| JsValues.JoinElements | slack_alert_server.js:69 | an array's conversion throws exactly when some element's conversion throws |
| JsValues.ParseInt | slack_alert_server.js:17 | `parseInt(s, 10)` is NaN exactly when no digit follows the optional white space and sign |
| JsValues.ParseIntOfDecimal | slack_alert_server.js:17 | `parseInt` reads back the decimal rendering of any integer, whatever non-digit text follows it |
| JsValues.NumberTextReadsBack | slack_alert_server.js:69 | the template-literal text of an integral number parses back to that number |
| Config.EnvText | slack_alert_server.js:17 | `parseInt` reads the variable's value, or, when it is unset, the text "undefined" that `undefined` converts to, in which no integer can be read |
| Config.WaitTime | slack_alert_server.js:17 | the window is never 0: NaN and 0 fall back to 3000, and any other parsed integer, negative ones included, is kept |
| Config.UnsetWaitTimeIsDefault | slack_alert_server.js:17 | with the variable unset, `parseInt("undefined")` is NaN and the window is 3000 ms |
| Config.WaitTimeFromNumber | slack_alert_server.js:17 | a variable holding a non-zero integer, optionally followed by non-digit text, sets the window to that integer |
| Config.ZeroWaitTimeIsDefault | slack_alert_server.js:17 | a variable holding 0 gives the default window |
| Config.TimerDelay | slack_alert_server.js:76 | the removal delay lies in 1..2^31-1; it equals the window when the window is in that range and is 1 otherwise |
| DedupCache.CheckAndRecord | slack_alert_server.js:68-78 | duplicate exactly when the key is live; a duplicate changes nothing; otherwise the key joins the set and its removal is due at now + delay; every other key keeps its due time; consistency is preserved |
| DedupCache.Tick | slack_alert_server.js:76 | the timer phase only removes keys, fires a prefix of the queue, and leaves no due removal at its front |
| DedupCache.TickRemovesExactlyDue | slack_alert_server.js:76 | in a valid cache a key survives the timer phase at `now` exactly when it was live and its removal is due after `now`; survivors keep their due times |
| DedupCache.TickPreservesValid | slack_alert_server.js:11-76 | the timer phase keeps the set equal to the keys of the pending removals, with those removals in due order |
| DedupCache.CheckPreservesValid | slack_alert_server.js:71-76 | recording a key at a later time keeps the cache valid |
| DedupCache.TickPreservesConsistent | slack_alert_server.js:76 | the timer phase keeps one pending removal per live key and none for other keys |
| DedupCache.TickKeepsLaterKey | slack_alert_server.js:76 | a key whose removal is due after `now` survives the timer phase at `now` with the same due time |
| DedupCache.Step | slack_alert_server.js:71-76 | an arrival adds exactly its key to the live set; a timer phase only removes keys; both keep the cache consistent |
| DedupCache.RunKeys | slack_alert_server.js:68-78 | after any sequence of arrivals and timer phases, every live key was live at the start or arrived during the run, and consistency is kept |
| DedupCache.RunPreservesValid | slack_alert_server.js:68-78 | any chronological run of arrivals and timer phases keeps the cache valid |
| DedupCache.StaysLiveUntilDue | slack_alert_server.js:71-76 | a live key stays live, with the same due time, through any run whose timer phases come before that time; re-arrivals do not extend the window |
| DedupCache.WindowIsExact | slack_alert_server.js:71-76 | once a key is accepted at `at`, every re-check, at any time, after a run whose timer phases all come before `at` + delay is a duplicate, and the first timer phase at or after that time removes the key |
| DedupCache.SubmitBurst | slack_alert_server.js:71-77 | among alerts arriving at one instant, an alert is a duplicate exactly when its key was live or occurred earlier in the burst; the set gains exactly the burst's keys; of N identical new alerts only the first is accepted |
| Notify.ColorFor | slack_alert_server.js:42 | the colour is always one of the table's values (line 33): the listed colour for a listed type, and "good" for any other type |
| Notify.CapitalizeFirstLetter | slack_alert_server.js:114-116 | same length, first character upper-cased, rest unchanged |
| Notify.CapitalizeIdempotent | slack_alert_server.js:114-116 | capitalizing twice is capitalizing once |
| Notify.TypeLabel | slack_alert_server.js:51 | the "Type" field is never empty: it is the capitalized type, and the "Success" fallback is used exactly when the type is empty |
| Notify.DetailsValue | slack_alert_server.js:56 | the "Details" field is always truthy: truthy details are kept, falsy ones become "Empty Details" |
| Notify.Compose | slack_alert_server.js:38-57 | a notification is built exactly when the type is a string; its text, colour, label and details are those of the alert |
| Notify.SendSlackAlert | slack_alert_server.js:36-66 | the send never fails outward; it is delivered exactly when a notification was built and the webhook accepts it |
| Notify.ValidTypeFields | slack_alert_server.js:33-51 | the three accepted types get the colours good/#f39c12/danger and the labels Success/Warning/Error |
| Handler.AckText | slack_alert_server.js:90-103 | each of the four acknowledgements is read back from its text by a client (`AckOfText`) as that acknowledgement |
| Handler.AckTextsDistinct | slack_alert_server.js:90-103 | the four acknowledgement texts are pairwise different |
| Handler.IsAlertType | slack_alert_server.js:89 | `includes` accepts exactly the three strings "success", "warning" and "error"; no other value, coerced or not, passes |
| Handler.AlertKey | slack_alert_server.js:69 | the key is the template-literal text of `type`, a colon, then the text of `details`; computing it throws exactly on `undefined`/`null` or when either property's conversion throws |
| Handler.Respond | slack_alert_server.js:83-105 | a send happens exactly when the answer is "forwarded"; a processing error happens exactly on a parse failure, an `undefined`/`null` alert, or (with the key taken from the alert) details whose conversion throws; a non-accepted type is exactly the invalid-type answer; neither touches the cache |
| Handler.Handle | slack_alert_server.js:83-105 | as written, every valid alert is checked under one shared key: it is a duplicate exactly when that key is live and is forwarded otherwise; invalid frames leave the cache alone and send nothing |
| Handler.FrameKeyIsConstant | slack_alert_server.js:94 | the key computed from the raw frame is "undefined:undefined" whatever the frame |
| Handler.HandleIntended | slack_alert_server.js:69 | with the key taken from the parsed alert, a valid alert is a duplicate exactly when its own key is live; one whose details cannot be converted is a processing error and leaves the cache alone |
| Handler.AckIgnoresSendResult | slack_alert_server.js:99-100 | Slack's answer changes neither the acknowledgement nor the cache |
| Handler.ForwardedNotification | slack_alert_server.js:89-99 | a forwarded alert's notification has its type's own colour and label; colour "good" goes with label "Success" and nothing else |
| Handler.ValidAlertsCollide | slack_alert_server.js:94 | as written, after one valid alert is forwarded at `t1`, a valid alert handled after any run of other frames and timer phases, none of them reaching `t1` + delay, is a duplicate |
| Handler.DistinctAlertsCollide | slack_alert_server.js:94 | as written, an error alert and an unrelated success alert 10 ms later: the second is suppressed |
| Handler.IntendedKeySeparates | slack_alert_server.js:69 | two valid alerts share the intended key only when their types are equal and their details render to the same text |
| Handler.IntendedDistinctAlertsBothForwarded | slack_alert_server.js:69 | with the intended key, the same two alerts are both forwarded |
| Handler.IntendedWindow | slack_alert_server.js:69-76 | with the intended key, a forwarded alert is suppressed, whenever it is re-sent, until the timer phase reaches its due time, and is forwarded again after that |
| Handler.OwnToStringDetailsRejected | slack_alert_server.js:101-103 | an error alert whose details are `{"toString":0}` is forwarded as written, while with the key taken from the alert its rendering throws and the answer is a processing error with the cache unchanged |
| Handler.ClientScenario | test_client.js:9-13 | the example client's alert with the default window: forwarded at 0 ms, a duplicate at 1000 ms, forwarded again at 3100 ms once the timer phase has run on the cache left by both |

## Left out

- Network and process plumbing is not modelled. This covers Express, the HTTP server, the `ws` connection life cycle, `server.listen`, `dotenv`, the missing-webhook-URL exit, and the console logging. The acknowledgement is the `Ack` value, not a socket write.
- The Slack webhook is not modelled. Whether it accepts a notification is the `sinkAccepts` input. The notification's "Date" field is left out because it is the wall-clock time rendered in the host locale.
- `JSON.parse` is not modelled. The handler receives its result as `Option<JsValue>`, with `None` when parsing threw.
- Delivery order of acknowledgements is not modelled. The forwarded acknowledgement (line 100) is written only after `await sendSlackAlert(...)` settles, and that send has no time-out. With a stalled webhook it may never be written. On one connection, a later frame's invalid-type or duplicate answer (lines 90 and 95) is written at once, so it can reach the client before an earlier frame's forwarded answer. Only the cache decision is atomic.
- Time is an explicit input, and the timer phase is an explicit `Tick` event. The runtime fires due timers from the front of the list for one duration. A removal is never dropped and never fires early.
- `Config.TimerDelay`: this is the runtime's `setTimeout` rule, not code from the repository. A delay below 1 or above 2^31-1 becomes 1. Because of it, a negative `DUPLICATE_WAIT_TIME` gives a 1 ms window.
- `JsValues.ParseInt`: whitespace is the ASCII set only. Leading Unicode spaces are not skipped. Values past 2^53 keep full precision instead of rounding.
- `JsValues.JsValue`: numbers are integers only. Fractional and exponent JSON numbers are not represented, because the server never computes with payload values. `ToText` renders integers in plain decimal, without the exponent notation JavaScript uses for numbers of 1e21 and above.
- `Notify.CapitalizeFirstLetter`: upper-casing covers ASCII letters only. Other characters are unchanged, not mapped by Unicode case rules. It is only reached with the three lower-case ASCII types.
- `Notify.ColorFor`: inherited properties of `Object.prototype` (a type of "constructor", say) are not modelled. Only the three accepted types reach it from the handler.
- The comment at slack_alert_server.js:17 speaks of 30 seconds, but the code's default is 3000 ms. The model follows the code.
- The raw frame is `Str(raw)`. The code gets a Buffer or a string depending on the `ws` version, and neither has a `type` or `details` property, so the key is the same.
- test_client.js is used only for the shape of its alert. It sends one alert and prints the answer.

## Findings

| source | as written | input that shows it | evidently intended | confidence | as-written member | corrected member |
|---|---|---|---|---|---|---|
| slack_alert_server.js:94 | `isDuplicateAlert(message)` gets the raw frame, whose `type` and `details` are `undefined`. Every valid alert gets the key "undefined:undefined", so any valid alert within the window of another is suppressed. | `{"type":"error","details":"Database connection lost on Server B."}` at 0 ms, then `{"type":"success","details":"Backup finished."}` at 10 ms with the default window: the second is answered "Duplicate alert detected" | `isDuplicateAlert(parsedMessage)`: the key is the alert's own type and details, so only alerts of the same type whose details render to the same text collide | high, not executed | Handler.DistinctAlertsCollide | Handler.IntendedDistinctAlertsBothForwarded |

=== FILE: config.dfy ===
/**
  Process configuration that the duplicate cache depends on: the length of
  the duplicate window, read once at start-up from the environment, and the
  delay the runtime actually uses when a removal is scheduled with it.
 */
module Config {
  import opened Wrappers
  import opened JsValues

  /** The window used when the environment gives none (milliseconds). The
      comment beside it in the source speaks of 30 seconds; the value is 3000. */
  const DefaultWaitTime := 3000

  /** The largest delay a timer accepts (2^31 - 1 milliseconds). */
  const TimeoutMax := 2147483647

  /** The text `parseInt` converts: the variable's value, or, when it is
      unset, the string conversion of `undefined`, in which no digit can be
      read. */
  function EnvText(env: Option<string>): (r: string)
    ensures env.Some? ==> r == env.value
    ensures env.None? ==> Some(r) == ToText(Undefined) && ParseInt(r).None?
  {
    match env
    case Some(s) => s
    case None =>
      var u := "undefined";
      assert SkipSpace(u, 0) == 0 && SignEnd(u, 0) == 0 && DigitsEnd(u, 0) == 0;
      u
  }

  /** `parseInt(DUPLICATE_WAIT_TIME, 10) || 3000`: NaN and zero are falsy,
      so both fall back to the default; any other integer, negative ones
      included, is kept. */
  function WaitTime(env: Option<string>): (w: int)
    ensures w != 0
    ensures ParseInt(EnvText(env)).None? ==> w == DefaultWaitTime
    ensures ParseInt(EnvText(env)) == Some(0) ==> w == DefaultWaitTime
    ensures forall n :: ParseInt(EnvText(env)) == Some(n) && n != 0 ==> w == n
  {
    match ParseInt(EnvText(env))
    case None => DefaultWaitTime
    case Some(n) => if n == 0 then DefaultWaitTime else n
  }

  /** With the variable unset the window is 3000 ms. */
  lemma UnsetWaitTimeIsDefault()
    ensures WaitTime(None) == DefaultWaitTime
  {
  }

  /** A variable holding a non-zero integer, possibly followed by a unit or
      other non-digit text ("5000ms"), sets the window to that integer. */
  lemma WaitTimeFromNumber(n: int, rest: string)
    requires n != 0
    requires rest == [] || !IsDigit(rest[0])
    ensures WaitTime(Some(Decimal(n) + rest)) == n
  {
    ParseIntOfDecimal(n, rest);
  }

  /** A variable holding zero falls back to the default. */
  lemma ZeroWaitTimeIsDefault(rest: string)
    requires rest == [] || !IsDigit(rest[0])
    ensures WaitTime(Some(Decimal(0) + rest)) == DefaultWaitTime
  {
    ParseIntOfDecimal(0, rest);
  }

  /** The delay the runtime's `setTimeout` uses for a requested delay: one
      below 1 or above `TimeoutMax` is replaced by 1. */
  function TimerDelay(requested: int): (d: int)
    ensures 1 <= d <= TimeoutMax
    ensures 1 <= requested <= TimeoutMax ==> d == requested
    ensures requested < 1 || requested > TimeoutMax ==> d == 1
  {
    if 1 <= requested <= TimeoutMax then requested else 1
  }
}

=== FILE: dedup_cache.dfy ===
/**
  The duplicate-suppression cache: the process-wide set of recent alert keys
  and the removals that `isDuplicateAlert` schedules for them.

  The server runs on a single-threaded event loop and the check-then-insert
  step is synchronous, so the cache is a sequential state machine driven by
  two kinds of step: an arrival (`CheckAndRecord`) and the timer phase of the
  loop (`Tick`), which fires the removals that are due. Time is explicit.
 */
module DedupCache {
  import opened Wrappers
  import Config

  /** A scheduled removal: at time `due` the key is deleted from the set. */
  datatype Timer = Timer(key: string, due: int)

  /** `recent` is the set of live keys; `timers` holds the removals not yet
      fired, in the order they were scheduled. The runtime keeps the timers
      of one duration in a single first-in first-out list and fires from its
      front while the front one is due; every removal here has the same
      duration, the configured window. */
  datatype Cache = Cache(recent: set<string>, timers: seq<Timer>)

  /** The cache when the server starts. */
  const Empty := Cache({}, [])

  /** The answer to "duplicate?" and the cache after the question. */
  datatype Verdict = Verdict(duplicate: bool, cache: Cache)

  function KeysOf(ts: seq<Timer>): set<string> {
    set i | 0 <= i < |ts| :: ts[i].key
  }

  predicate DistinctKeys(ts: seq<Timer>) {
    forall i, j :: 0 <= i < j < |ts| ==> ts[i].key != ts[j].key
  }

  /** Every live key has exactly one pending removal, and every pending
      removal is of a live key. */
  predicate Consistent(c: Cache) {
    c.recent == KeysOf(c.timers) && DistinctKeys(c.timers)
  }

  /** The pending removals fall due in queue order, none later than `bound`. */
  predicate Ordered(ts: seq<Timer>, bound: int) {
    && (forall i, j :: 0 <= i < j < |ts| ==> ts[i].due <= ts[j].due)
    && (forall i :: 0 <= i < |ts| ==> ts[i].due <= bound)
  }

  /** The state the cache is in at time `clock` under window `window`. */
  predicate Valid(c: Cache, clock: int, window: int) {
    Consistent(c) && Ordered(c.timers, clock + Config.TimerDelay(window))
  }

  /** When the pending removal of `key` falls due, if one is pending. */
  function DueOf(ts: seq<Timer>, key: string): (r: Option<int>)
    ensures r.Some? <==> key in KeysOf(ts)
    decreases |ts|
  {
    if ts == [] then None
    else if ts[0].key == key then Some(ts[0].due)
    else
      var r := DueOf(ts[1..], key);
      assert KeysOf(ts) == {ts[0].key} + KeysOf(ts[1..]) by {
        KeysOfCons(ts);
      }
      r
  }

  lemma KeysOfCons(ts: seq<Timer>)
    requires ts != []
    ensures KeysOf(ts) == {ts[0].key} + KeysOf(ts[1..])
  {
    forall k | k in KeysOf(ts)
      ensures k in {ts[0].key} + KeysOf(ts[1..])
    {
      var i :| 0 <= i < |ts| && ts[i].key == k;
      if i > 0 {
        assert ts[1..][i - 1].key == k;
      }
    }
    forall k | k in KeysOf(ts[1..])
      ensures k in KeysOf(ts)
    {
      var i :| 0 <= i < |ts[1..]| && ts[1..][i].key == k;
      assert ts[i + 1].key == k;
    }
  }

  // ---------------------------------------------------------------------
  // isDuplicateAlert
  // ---------------------------------------------------------------------

  /** `isDuplicateAlert` on a computed key: a live key is a duplicate and
      nothing changes; otherwise the key is added and its removal is
      scheduled `window` milliseconds (as the timer clamps it) from `now`. */
  function CheckAndRecord(c: Cache, key: string, now: int, window: int): (r: Verdict)
    ensures r.duplicate <==> key in c.recent
    ensures r.duplicate ==> r.cache == c
    ensures r.cache.recent == c.recent + {key}
    ensures Consistent(c) ==> Consistent(r.cache)
    ensures Consistent(c) && !r.duplicate ==>
      DueOf(r.cache.timers, key) == Some(now + Config.TimerDelay(window))
    ensures forall k :: k != key ==> DueOf(r.cache.timers, k) == DueOf(c.timers, k)
  {
    if key in c.recent then Verdict(true, c)
    else
      var t := Timer(key, now + Config.TimerDelay(window));
      DueOfAppend(c.timers, t);
      KeysOfAppend(c.timers, t);
      Verdict(false, Cache(c.recent + {key}, c.timers + [t]))
  }

  lemma {:induction false} DueOfAppend(ts: seq<Timer>, t: Timer)
    ensures forall k :: k in KeysOf(ts) ==> DueOf(ts + [t], k) == DueOf(ts, k)
    ensures forall k :: k !in KeysOf(ts) ==> DueOf(ts + [t], k) == (if k == t.key then Some(t.due) else None)
    decreases |ts|
  {
    if ts != [] {
      DueOfAppend(ts[1..], t);
      assert (ts + [t])[1..] == ts[1..] + [t];
      KeysOfCons(ts);
    }
  }

  lemma KeysOfAppend(ts: seq<Timer>, t: Timer)
    ensures KeysOf(ts + [t]) == KeysOf(ts) + {t.key}
    ensures t.key !in KeysOf(ts) && DistinctKeys(ts) ==> DistinctKeys(ts + [t])
  {
    var u := ts + [t];
    assert u[|ts|].key == t.key;
    forall k | k in KeysOf(ts)
      ensures k in KeysOf(u)
    {
      var i :| 0 <= i < |ts| && ts[i].key == k;
      assert u[i].key == k;
    }
  }

  // ---------------------------------------------------------------------
  // Firing the scheduled removals
  // ---------------------------------------------------------------------

  /** How many removals at the front of the queue are due at `now`. */
  function DueCount(ts: seq<Timer>, now: int): (n: nat)
    ensures n <= |ts|
    ensures forall i :: 0 <= i < n ==> ts[i].due <= now
    ensures n < |ts| ==> ts[n].due > now
    decreases |ts|
  {
    if |ts| > 0 && ts[0].due <= now then 1 + DueCount(ts[1..], now) else 0
  }

  /** The timer phase of the event loop at time `now`: while the removal at
      the front of the queue is due, fire it, deleting its key. The removals
      that fire are a prefix of the queue; its keys leave the set. */
  function Tick(c: Cache, now: int): (r: Cache)
    ensures r.recent <= c.recent
    ensures |r.timers| <= |c.timers| && r.timers == c.timers[|c.timers| - |r.timers|..]
    ensures r.timers != [] ==> r.timers[0].due > now
  {
    var n := DueCount(c.timers, now);
    Cache(c.recent - KeysOf(c.timers[..n]), c.timers[n..])
  }

  /** A fired prefix and the remaining suffix of a queue with distinct keys
      share no key. */
  lemma SplitKeys(ts: seq<Timer>, n: nat)
    requires n <= |ts| && DistinctKeys(ts)
    ensures KeysOf(ts) == KeysOf(ts[..n]) + KeysOf(ts[n..])
    ensures KeysOf(ts[..n]) !! KeysOf(ts[n..])
    ensures DistinctKeys(ts[n..])
  {
    forall k | k in KeysOf(ts)
      ensures k in KeysOf(ts[..n]) + KeysOf(ts[n..])
    {
      var i :| 0 <= i < |ts| && ts[i].key == k;
      if i < n {
        assert ts[..n][i].key == k;
      } else {
        assert ts[n..][i - n].key == k;
      }
    }
    forall k | k in KeysOf(ts[..n]) + KeysOf(ts[n..])
      ensures k in KeysOf(ts)
    {
      if k in KeysOf(ts[..n]) {
        var i :| 0 <= i < n && ts[..n][i].key == k;
        assert ts[i].key == k;
      } else {
        var i :| 0 <= i < |ts| - n && ts[n..][i].key == k;
        assert ts[n + i].key == k;
      }
    }
    forall k | k in KeysOf(ts[..n])
      ensures k !in KeysOf(ts[n..])
    {
      var i :| 0 <= i < n && ts[..n][i].key == k;
      assert forall j :: 0 <= j < |ts| - n ==> ts[n..][j].key != k by {
        forall j | 0 <= j < |ts| - n
          ensures ts[n..][j].key != k
        {
          assert ts[n..][j] == ts[n + j] && ts[..n][i] == ts[i];
        }
      }
    }
    forall i, j | 0 <= i < j < |ts| - n
      ensures ts[n..][i].key != ts[n..][j].key
    {
      assert ts[n..][i] == ts[n + i] && ts[n..][j] == ts[n + j];
    }
  }

  /** A queue suffix with distinct keys tells the same due time for each of
      its keys as the whole queue. */
  lemma {:induction false} DueOfSuffix(ts: seq<Timer>, n: nat, key: string)
    requires n <= |ts| && DistinctKeys(ts)
    requires key in KeysOf(ts[n..])
    ensures DueOf(ts[n..], key) == DueOf(ts, key)
    decreases n
  {
    if n > 0 {
      SplitKeys(ts, n);
      assert ts[0].key != key by {
        assert ts[0].key in KeysOf(ts[..n]) by {
          assert ts[..n][0] == ts[0];
        }
      }
      assert ts[1..][n - 1..] == ts[n..];
      DueOfSuffix(ts[1..], n - 1, key);
    }
  }

  /** Firing removals keeps the cache consistent, and at a later time the
      remaining removals are still ordered under the later bound. */
  lemma TickPreservesValid(c: Cache, clock: int, now: int, window: int)
    requires Valid(c, clock, window) && clock <= now
    ensures Valid(Tick(c, now), now, window)
  {
    SplitKeys(c.timers, DueCount(c.timers, now));
  }

  /** Recording a key at a later time keeps the cache valid at that time. */
  lemma CheckPreservesValid(c: Cache, key: string, clock: int, now: int, window: int)
    requires Valid(c, clock, window) && clock <= now
    ensures Valid(CheckAndRecord(c, key, now, window).cache, now, window)
  {
  }

  /** In a valid cache the tick at `now` removes exactly the keys whose
      removal is due by `now`; every other entry keeps its due time. */
  lemma TickRemovesExactlyDue(c: Cache, clock: int, now: int, window: int)
    requires Valid(c, clock, window)
    ensures forall k :: k in Tick(c, now).recent <==> k in c.recent && DueOf(c.timers, k).value > now
    ensures forall k :: k in Tick(c, now).recent ==> DueOf(Tick(c, now).timers, k) == DueOf(c.timers, k)
  {
    SplitKeys(c.timers, DueCount(c.timers, now));
    forall k | k in c.recent
      ensures k in Tick(c, now).recent <==> DueOf(c.timers, k).value > now
    {
      TickFate(c, now, k);
    }
    forall k | k in Tick(c, now).recent
      ensures DueOf(Tick(c, now).timers, k) == DueOf(c.timers, k)
    {
      DueOfSuffix(c.timers, DueCount(c.timers, now), k);
    }
  }

  /** What the tick does to one live key of a cache whose removals are in
      due order: it survives exactly when its removal is due after `now`. */
  lemma TickFate(c: Cache, now: int, k: string)
    requires Consistent(c) && k in c.recent
    requires forall i, j :: 0 <= i < j < |c.timers| ==> c.timers[i].due <= c.timers[j].due
    ensures k in Tick(c, now).recent <==> DueOf(c.timers, k).value > now
  {
    var n := DueCount(c.timers, now);
    SplitKeys(c.timers, n);
    if k in KeysOf(c.timers[n..]) {
      DueAfterPrefix(c.timers, n, now, k);
    } else {
      DueWithinPrefix(c.timers, n, now, k);
    }
  }

  /** A key left in the queue after its due prefix is due after `now`. */
  lemma DueAfterPrefix(ts: seq<Timer>, n: nat, now: int, k: string)
    requires n < |ts| && DistinctKeys(ts) && ts[n].due > now
    requires forall i, j :: 0 <= i < j < |ts| ==> ts[i].due <= ts[j].due
    requires k in KeysOf(ts[n..])
    ensures DueOf(ts, k).value > now
  {
    DueOfSuffix(ts, n, k);
    DueOfIsSomeEntry(ts[n..], k);
    var j :| 0 <= j < |ts| - n && ts[n..][j] == Timer(k, DueOf(ts, k).value);
    assert ts[n..][j] == ts[n + j];
  }

  /** A key in the due prefix of the queue is due by `now`. */
  lemma DueWithinPrefix(ts: seq<Timer>, n: nat, now: int, k: string)
    requires n <= |ts| && DistinctKeys(ts)
    requires forall i :: 0 <= i < n ==> ts[i].due <= now
    requires k in KeysOf(ts[..n])
    ensures DueOf(ts, k).value <= now
  {
    var i :| 0 <= i < n && ts[..n][i].key == k;
    DueOfDistinct(ts, i);
  }

  /** The due time `DueOf` reports belongs to an entry of the queue. */
  lemma {:induction false} DueOfIsSomeEntry(ts: seq<Timer>, key: string)
    requires key in KeysOf(ts)
    ensures exists j :: 0 <= j < |ts| && ts[j] == Timer(key, DueOf(ts, key).value)
    decreases |ts|
  {
    if ts[0].key != key {
      KeysOfCons(ts);
      DueOfIsSomeEntry(ts[1..], key);
      var j :| 0 <= j < |ts[1..]| && ts[1..][j] == Timer(key, DueOf(ts[1..], key).value);
      assert ts[j + 1] == ts[1..][j];
    } else {
      assert ts[0] == Timer(key, DueOf(ts, key).value);
    }
  }

  /** With distinct keys, the due time of an entry's key is that entry's. */
  lemma {:induction false} DueOfDistinct(ts: seq<Timer>, i: nat)
    requires i < |ts| && DistinctKeys(ts)
    ensures DueOf(ts, ts[i].key) == Some(ts[i].due)
    decreases i
  {
    if i > 0 {
      assert ts[0].key != ts[i].key;
      assert ts[1..][i - 1] == ts[i];
      DueOfDistinct(ts[1..], i - 1);
    }
  }

  /** Firing removals keeps every key and pending removal consistent. */
  lemma TickPreservesConsistent(c: Cache, now: int)
    ensures Consistent(c) ==> Consistent(Tick(c, now))
  {
    if Consistent(c) {
      SplitKeys(c.timers, DueCount(c.timers, now));
    }
  }

  /** A key whose removal is due after `now` survives the tick at `now`
      with the same due time. */
  lemma TickKeepsLaterKey(c: Cache, now: int, key: string)
    requires Consistent(c) && key in c.recent && DueOf(c.timers, key).value > now
    ensures DueOf(Tick(c, now).timers, key) == DueOf(c.timers, key)
  {
    var ts := c.timers;
    var n := DueCount(ts, now);
    DueOfIsSomeEntry(ts, key);
    var j :| 0 <= j < |ts| && ts[j] == Timer(key, DueOf(ts, key).value);
    assert j >= n;
    assert key in KeysOf(ts[n..]) by {
      assert ts[n..][j - n] == ts[j];
    }
    SplitKeys(ts, n);
    DueOfSuffix(ts, n, key);
  }

  // ---------------------------------------------------------------------
  // Runs of the event loop
  // ---------------------------------------------------------------------

  /** What the event loop does to the cache: an alert arrives and its key is
      checked, or the timer phase runs. */
  datatype Event = Arrival(key: string, at: int) | TimerPhase(at: int)

  /** One event: an arrival adds its key (if it was live, nothing changes);
      a timer phase only removes keys. */
  function Step(c: Cache, e: Event, window: int): (r: Cache)
    ensures e.Arrival? ==> r.recent == c.recent + {e.key}
    ensures e.TimerPhase? ==> r.recent <= c.recent
    ensures Consistent(c) ==> Consistent(r)
  {
    match e
    case Arrival(k, t) => CheckAndRecord(c, k, t, window).cache
    case TimerPhase(t) =>
      TickPreservesConsistent(c, t);
      Tick(c, t)
  }

  /** The keys of the arrivals among `evs`. */
  function Arrived(evs: seq<Event>): set<string> {
    set i | 0 <= i < |evs| && evs[i].Arrival? :: evs[i].key
  }

  /** The cache after the events, in order. */
  function Run(c: Cache, evs: seq<Event>, window: int): Cache
    decreases |evs|
  {
    if evs == [] then c else Run(Step(c, evs[0], window), evs[1..], window)
  }

  /** A key live after a run was live at the start or arrived during the
      run, and the run keeps the cache consistent. */
  lemma {:induction false} RunKeys(c: Cache, evs: seq<Event>, window: int)
    ensures Run(c, evs, window).recent <= c.recent + Arrived(evs)
    ensures Consistent(c) ==> Consistent(Run(c, evs, window))
    decreases |evs|
  {
    if evs != [] {
      assert Arrived(evs[1..]) <= Arrived(evs) by {
        forall k | k in Arrived(evs[1..])
          ensures k in Arrived(evs)
        {
          var i :| 0 <= i < |evs| - 1 && evs[1..][i].Arrival? && evs[1..][i].key == k;
          assert evs[i + 1] == evs[1..][i];
        }
      }
      assert evs[0].Arrival? ==> evs[0].key in Arrived(evs);
      RunKeys(Step(c, evs[0], window), evs[1..], window);
    }
  }

  /** The events happen in time order, none before `clock`. */
  predicate Chronological(evs: seq<Event>, clock: int) {
    && (forall i :: 0 <= i < |evs| ==> clock <= evs[i].at)
    && (forall i, j :: 0 <= i < j < |evs| ==> evs[i].at <= evs[j].at)
  }

  /** The time of the last event, or `clock` when there is none. */
  function LastTime(evs: seq<Event>, clock: int): int {
    if evs == [] then clock else evs[|evs| - 1].at
  }

  /** A chronological run keeps the cache valid. */
  lemma {:induction false} RunPreservesValid(c: Cache, clock: int, evs: seq<Event>, window: int)
    requires Valid(c, clock, window) && Chronological(evs, clock)
    ensures Valid(Run(c, evs, window), LastTime(evs, clock), window)
    decreases |evs|
  {
    if evs != [] {
      var e := evs[0];
      match e {
        case Arrival(k, t) => CheckPreservesValid(c, k, clock, t, window);
        case TimerPhase(t) => TickPreservesValid(c, clock, t, window);
      }
      var c' := Step(c, e, window);
      assert Valid(c', e.at, window);
      assert Chronological(evs[1..], e.at);
      RunPreservesValid(c', e.at, evs[1..], window);
      assert Run(c, evs, window) == Run(c', evs[1..], window);
      if |evs| > 1 {
        assert LastTime(evs[1..], e.at) == LastTime(evs, clock);
      }
    }
  }

  /** A live key stays live with its due time unchanged through any run in
      which no timer phase reaches that due time: later arrivals of the key
      neither extend nor shorten its window. */
  lemma {:induction false} StaysLiveUntilDue(c: Cache, evs: seq<Event>, window: int, key: string, due: int)
    requires Consistent(c) && DueOf(c.timers, key) == Some(due)
    requires forall i :: 0 <= i < |evs| && evs[i].TimerPhase? ==> evs[i].at < due
    ensures Consistent(Run(c, evs, window))
    ensures DueOf(Run(c, evs, window).timers, key) == Some(due)
    ensures key in Run(c, evs, window).recent
    decreases |evs|
  {
    if evs != [] {
      var c' := Step(c, evs[0], window);
      match evs[0] {
        case Arrival(k, t) =>
        case TimerPhase(t) =>
          TickPreservesConsistent(c, t);
          TickKeepsLaterKey(c, t, key);
      }
      StaysLiveUntilDue(c', evs[1..], window, key, due);
    }
  }

  /** The window of an accepted key is exact. Accepted at time `at`, the key
      is live after every prefix of a run whose timer phases all come before
      `at + delay`, so every arrival of it there is a duplicate; and the
      first timer phase at or after `at + delay` removes it. */
  lemma {:induction false} WindowIsExact(c: Cache, clock: int, key: string, at: int, evs: seq<Event>, window: int)
    requires Valid(c, clock, window) && clock <= at && key !in c.recent
    requires Chronological(evs, at)
    requires forall i :: 0 <= i < |evs| && evs[i].TimerPhase? ==> evs[i].at < at + Config.TimerDelay(window)
    ensures forall j, later :: 0 <= j <= |evs| ==>
      CheckAndRecord(Run(CheckAndRecord(c, key, at, window).cache, evs[..j], window), key, later, window).duplicate
    ensures forall t :: t >= at + Config.TimerDelay(window) ==>
      key !in Tick(Run(CheckAndRecord(c, key, at, window).cache, evs, window), t).recent
  {
    var due := at + Config.TimerDelay(window);
    var c1 := CheckAndRecord(c, key, at, window).cache;
    forall j | 0 <= j <= |evs|
      ensures key in Run(c1, evs[..j], window).recent
    {
      StaysLiveUntilDue(c1, evs[..j], window, key, due);
    }
    assert evs[..|evs|] == evs;
    StaysLiveUntilDue(c1, evs, window, key, due);
    CheckPreservesValid(c, key, clock, at, window);
    RunPreservesValid(c1, at, evs, window);
    forall t | t >= due
      ensures key !in Tick(Run(c1, evs, window), t).recent
    {
      TickRemovesExactlyDue(Run(c1, evs, window), LastTime(evs, at), t, window);
    }
  }

  // ---------------------------------------------------------------------
  // Simultaneous submissions
  // ---------------------------------------------------------------------

  /** The event loop handling `keys`, all arriving at the same instant with
      no timer phase between them. Each check-then-insert runs to completion
      before the next begins, so a key is reported new only at its first
      occurrence, and only when it was not already live. */
  method SubmitBurst(c: Cache, keys: seq<string>, now: int, window: int) returns (answers: seq<bool>, final: Cache)
    ensures |answers| == |keys|
    ensures forall i :: 0 <= i < |keys| ==> (answers[i] <==> keys[i] in c.recent || keys[i] in keys[..i])
    ensures final.recent == c.recent + (set i | 0 <= i < |keys| :: keys[i])
    ensures Consistent(c) ==> Consistent(final)
    ensures (forall i :: 0 <= i < |keys| ==> keys[i] == keys[0]) && |keys| > 0 && keys[0] !in c.recent ==>
      !answers[0] && forall i :: 1 <= i < |keys| ==> answers[i]
  {
    answers := [];
    final := c;
    var i := 0;
    while i < |keys|
      invariant 0 <= i <= |keys| && |answers| == i
      invariant forall j :: 0 <= j < i ==> (answers[j] <==> keys[j] in c.recent || keys[j] in keys[..j])
      invariant final.recent == c.recent + Seen(keys, i)
      invariant Consistent(c) ==> Consistent(final)
    {
      var v := CheckAndRecord(final, keys[i], now, window);
      SeenStep(keys, i);
      answers := answers + [v.duplicate];
      final := v.cache;
      i := i + 1;
    }
    if (forall j :: 0 <= j < |keys| ==> keys[j] == keys[0]) && |keys| > 0 && keys[0] !in c.recent {
      forall j | 1 <= j < |keys|
        ensures answers[j]
      {
        assert keys[..j][0] == keys[j];
      }
    }
  }

  /** The keys among the first `i` submissions. */
  function Seen(keys: seq<string>, i: nat): set<string>
    requires i <= |keys|
  {
    set j | 0 <= j < i :: keys[j]
  }

  /** One more submission adds its key to those seen, and it was seen
      before exactly when it occurs among the earlier submissions. */
  lemma SeenStep(keys: seq<string>, i: nat)
    requires i < |keys|
    ensures keys[i] in keys[..i] <==> keys[i] in Seen(keys, i)
    ensures Seen(keys, i + 1) == Seen(keys, i) + {keys[i]}
  {
    if keys[i] in keys[..i] {
      var j :| 0 <= j < i && keys[..i][j] == keys[i];
      assert keys[j] == keys[i];
    }
    if keys[i] in Seen(keys, i) {
      var j :| 0 <= j < i && keys[j] == keys[i];
      assert keys[..i][j] == keys[i];
    }
  }
}

=== FILE: handler.dfy ===
/**
  The per-message handler a connection runs for every frame it receives:
  parse, check the type, ask the duplicate cache, forward, acknowledge.

  Everything the handler does up to the send is synchronous, so on the
  single-threaded event loop the decision, cache update included, happens
  at one instant and no other frame's handling interleaves with it. Only the
  send suspends, and which acknowledgement follows it does not depend on how
  it went. The handler is therefore one pure step from the cache before the
  frame to the acknowledgement, the send (if any) and the cache after it.
  When that acknowledgement reaches the client is not part of the step: the
  forwarded one is written only once the send has settled.

  Parsing is abstract: the handler receives the frame's text together with
  what `JSON.parse` made of it (`None` when it threw).
 */
module Handler {
  import opened Wrappers
  import opened JsValues
  import DedupCache
  import Notify
  import Config

  /** The four acknowledgements a client can receive. */
  datatype Ack = InvalidType | Duplicate | Forwarded | ProcessingError

  function AckText(a: Ack): (r: string)
    ensures AckOfText(r) == Some(a)
  {
    match a
    case InvalidType => "Invalid alert type. Must be one of: success, warning, error"
    case Duplicate => "Duplicate alert detected. Not sent to Slack."
    case Forwarded => "Alert received by server and sent to Slack"
    case ProcessingError => "Error processing alert message"
  }

  /** The acknowledgement an answer's text stands for: the text must match
      one of the four exactly. */
  function AckOfText(text: string): Option<Ack> {
    if text == "Invalid alert type. Must be one of: success, warning, error" then Some(InvalidType)
    else if text == "Duplicate alert detected. Not sent to Slack." then Some(Duplicate)
    else if text == "Alert received by server and sent to Slack" then Some(Forwarded)
    else if text == "Error processing alert message" then Some(ProcessingError)
    else None
  }

  /** A client can tell every acknowledgement apart by its text. */
  lemma AckTextsDistinct(a: Ack, b: Ack)
    requires a != b
    ensures AckText(a) != AckText(b)
  {
    assert AckOfText(AckText(a)) != AckOfText(AckText(b));
  }

  /** The accepted alert types, compared exactly as `includes` does:
      only a string equal character for character matches. */
  const AlertTypes: seq<string> := ["success", "warning", "error"]

  function IsAlertType(v: JsValue): (r: bool)
    ensures r <==> v in {Str("success"), Str("warning"), Str("error")}
  {
    v.Str? && v.s in AlertTypes
  }

  /** The frame as the handler sees it before parsing. It is text or a
      byte buffer; neither has a `type` or `details` property. */
  function Frame(raw: string): JsValue {
    Str(raw)
  }

  /** `${alert.type}:${alert.details}`, the cache key, exactly as rendered:
      no trimming, no case folding. It throws on `undefined` and `null`, and
      when either property's string conversion throws. */
  function AlertKey(alert: JsValue): (r: Option<string>)
    ensures r.None? <==>
      (alert.Undefined? || alert.Null? ||
       Unprintable(Property(alert, TypeField).value) || Unprintable(Property(alert, DetailsField).value))
    ensures r.Some? ==>
      r.value == ToText(Property(alert, TypeField).value).value + ":" + ToText(Property(alert, DetailsField).value).value
  {
    match (Property(alert, TypeField), Property(alert, DetailsField))
    case (Some(t), Some(d)) =>
      (match (ToText(t), ToText(d))
       case (Some(a), Some(b)) => Some(a + ":" + b)
       case _ => None)
    case _ => None
  }

  /** The key the handler actually checks: the one computed from the raw
      frame, in which both properties are `undefined`. */
  const FrameKey := "undefined:undefined"

  /** Which value the cache key is computed from. */
  datatype KeySource = RawFrame | ParsedAlert

  /** The result of handling one frame: the acknowledgement, the call of
      `sendSlackAlert` if one was made, and the cache afterwards. */
  datatype Outcome = Outcome(ack: Ack, dispatch: Option<Notify.SendOutcome>, cache: DedupCache.Cache)

  /** The handler body, with the cache key computed from `source`. Any
      exception before the send (parse failure, property of `null`, a key
      that cannot be rendered) is
      caught and answered with the processing-error acknowledgement; the
      send itself never throws. */
  function Respond(c: DedupCache.Cache, raw: string, parsed: Option<JsValue>, now: int, window: int,
                   sinkAccepts: bool, source: KeySource): (r: Outcome)
    ensures r.dispatch.Some? <==> r.ack == Forwarded
    ensures r.ack == ProcessingError || r.ack == InvalidType ==> r.cache == c
    ensures r.ack == ProcessingError <==>
      (parsed.None? || parsed.value.Undefined? || parsed.value.Null? ||
       (source == ParsedAlert && ValidAlert(parsed) && Unprintable(Property(parsed.value, DetailsField).value)))
    ensures r.ack == InvalidType <==>
      parsed.Some? && Property(parsed.value, TypeField).Some? && !IsAlertType(Property(parsed.value, TypeField).value)
    ensures r.ack == Forwarded ==> r.dispatch == Some(Notify.SendSlackAlert(parsed.value, sinkAccepts))
  {
    FrameKeyIsConstant(raw);
    match parsed
    case None => Outcome(ProcessingError, None, c)
    case Some(alert) =>
      match Property(alert, TypeField)
      case None => Outcome(ProcessingError, None, c)
      case Some(t) =>
        if !IsAlertType(t) then Outcome(InvalidType, None, c)
        else
          assert t.Str? && !Unprintable(t);
          var rendered := if source == RawFrame then AlertKey(Frame(raw)) else AlertKey(alert);
          assert rendered.None? ==> source == ParsedAlert && Unprintable(Property(alert, DetailsField).value);
          match rendered
          case None => Outcome(ProcessingError, None, c)
          case Some(key) =>
            var v := DedupCache.CheckAndRecord(c, key, now, window);
            if v.duplicate then Outcome(Duplicate, None, v.cache)
            else Outcome(Forwarded, Some(Notify.SendSlackAlert(alert, sinkAccepts)), v.cache)
  }

  /** A parsed alert with an accepted type. */
  predicate ValidAlert(parsed: Option<JsValue>) {
    parsed.Some? && Property(parsed.value, TypeField).Some? && IsAlertType(Property(parsed.value, TypeField).value)
  }

  /** The handler as written: the key comes from the raw frame, so every
      valid alert is checked under the same key, whatever its type and
      details. A valid alert is a duplicate exactly when that key is live;
      otherwise it is sent exactly once and acknowledged as forwarded,
      whether or not Slack accepted it. */
  function Handle(c: DedupCache.Cache, raw: string, parsed: Option<JsValue>, now: int, window: int,
                  sinkAccepts: bool): (r: Outcome)
    ensures ValidAlert(parsed) ==> r.cache == DedupCache.CheckAndRecord(c, FrameKey, now, window).cache
    ensures ValidAlert(parsed) ==> (r.ack == Duplicate <==> FrameKey in c.recent)
    ensures ValidAlert(parsed) ==> (r.ack == Forwarded <==> FrameKey !in c.recent)
    ensures !ValidAlert(parsed) ==> r.cache == c && r.dispatch.None?
    ensures r.ack == Forwarded ==> r.dispatch.Some? && (r.dispatch.value.Delivered? || r.dispatch.value.Rejected?)
  {
    FrameKeyIsConstant(raw);
    Respond(c, raw, parsed, now, window, sinkAccepts, RawFrame)
  }

  /** Whatever the frame's text, its key is "undefined:undefined". */
  lemma FrameKeyIsConstant(raw: string)
    ensures AlertKey(Frame(raw)) == Some(FrameKey)
  {
    assert Property(Frame(raw), TypeField) == Some(Undefined);
    assert Property(Frame(raw), DetailsField) == Some(Undefined);
    var k := ToText(Undefined).value + ":" + ToText(Undefined).value;
    assert AlertKey(Frame(raw)) == Some(k);
    assert |k| == |FrameKey|;
    forall i | 0 <= i < |k|
      ensures k[i] == FrameKey[i]
    {
    }
    assert k == FrameKey;
  }

  /** The handler as evidently intended: the key comes from the parsed
      alert, so it separates alerts by type and details. Rendering it
      throws when the details cannot be converted to a string, which the
      handler answers as a processing error. */
  function HandleIntended(c: DedupCache.Cache, raw: string, parsed: Option<JsValue>, now: int, window: int,
                          sinkAccepts: bool): (r: Outcome)
    ensures ValidAlert(parsed) && Unprintable(Property(parsed.value, DetailsField).value) ==>
      r.ack == ProcessingError && r.cache == c && r.dispatch.None?
    ensures ValidAlert(parsed) && !Unprintable(Property(parsed.value, DetailsField).value) ==>
      var key := AlertKey(parsed.value).value;
      && r.cache == DedupCache.CheckAndRecord(c, key, now, window).cache
      && (r.ack == Duplicate <==> key in c.recent)
      && (r.ack == Forwarded <==> key !in c.recent)
    ensures !ValidAlert(parsed) ==> r.cache == c && r.dispatch.None?
  {
    Respond(c, raw, parsed, now, window, sinkAccepts, ParsedAlert)
  }

  // ---------------------------------------------------------------------
  // Properties of the handler
  // ---------------------------------------------------------------------

  /** Slack's answer never changes what the client is told or what the
      cache holds. */
  lemma AckIgnoresSendResult(c: DedupCache.Cache, raw: string, parsed: Option<JsValue>, now: int, window: int)
    ensures Handle(c, raw, parsed, now, window, true).ack == Handle(c, raw, parsed, now, window, false).ack
    ensures Handle(c, raw, parsed, now, window, true).cache == Handle(c, raw, parsed, now, window, false).cache
  {
  }

  /** A forwarded alert always has one of the three types, so its
      notification carries that type's own colour and label; the "good" and
      "Success" fallbacks are never used on this path. */
  lemma ForwardedNotification(c: DedupCache.Cache, raw: string, parsed: Option<JsValue>, now: int, window: int,
                              sinkAccepts: bool)
    requires Handle(c, raw, parsed, now, window, sinkAccepts).ack == Forwarded
    ensures var d := Handle(c, raw, parsed, now, window, sinkAccepts).dispatch.value;
      var n := if d.Delivered? then d.sent else d.attempted;
      && n.color in Notify.ColorTable.Values
      && n.typeLabel in ["Success", "Warning", "Error"]
      && (n.color == "good" <==> n.typeLabel == "Success")
  {
    Notify.ValidTypeFields();
  }

  /** As written, two valid alerts collide whatever their types and details:
      once one has been forwarded at `t1`, any valid alert handled later is
      reported as a duplicate as long as no timer phase has reached
      `t1 + delay`, whatever other frames were handled in between. */
  lemma {:induction false} ValidAlertsCollide(c: DedupCache.Cache, raw1: string, p1: Option<JsValue>, t1: int,
                                              evs: seq<DedupCache.Event>,
                                              raw2: string, p2: Option<JsValue>, t2: int,
                                              window: int, s1: bool, s2: bool)
    requires DedupCache.Consistent(c)
    requires ValidAlert(p1) && ValidAlert(p2)
    requires Handle(c, raw1, p1, t1, window, s1).ack == Forwarded
    requires forall i :: 0 <= i < |evs| && evs[i].TimerPhase? ==> evs[i].at < t1 + Config.TimerDelay(window)
    ensures Handle(DedupCache.Run(Handle(c, raw1, p1, t1, window, s1).cache, evs, window), raw2, p2, t2, window, s2).ack
      == Duplicate
  {
    var c1 := Handle(c, raw1, p1, t1, window, s1).cache;
    DedupCache.StaysLiveUntilDue(c1, evs, window, FrameKey, t1 + Config.TimerDelay(window));
  }

  // ---------------------------------------------------------------------
  // The key, as written and as intended
  // ---------------------------------------------------------------------

  /** The alert the example client sends. */
  const ServiceFailure := Obj(map[
    "message" := Str("Service failure!"),
    "type" := Str("error"),
    "details" := Str("Database connection lost on Server B.")])

  /** An alert that differs from it in type, details and message. */
  const BackupDone := Obj(map[
    "message" := Str("Nightly backup"),
    "type" := Str("success"),
    "details" := Str("Backup finished.")])

  /** Both example alerts are valid, and their intended keys start with the
      first letter of their types. */
  lemma ExampleAlertsValid()
    ensures ValidAlert(Some(ServiceFailure)) && ValidAlert(Some(BackupDone))
    ensures AlertKey(ServiceFailure).value[0] == 'e' && AlertKey(BackupDone).value[0] == 's'
  {
    assert Property(ServiceFailure, TypeField) == Some(Str("error"));
    assert Property(BackupDone, TypeField) == Some(Str("success"));
  }

  /** As written, an unrelated alert that arrives 10 ms after the service
      failure alert is suppressed as its duplicate. */
  lemma DistinctAlertsCollide(raw1: string, raw2: string, s1: bool, s2: bool)
    ensures Handle(DedupCache.Empty, raw1, Some(ServiceFailure), 0, 3000, s1).ack == Forwarded
    ensures Handle(Handle(DedupCache.Empty, raw1, Some(ServiceFailure), 0, 3000, s1).cache,
                   raw2, Some(BackupDone), 10, 3000, s2).ack == Duplicate
  {
    assert Property(ServiceFailure, TypeField) == Some(Str("error"));
    assert Property(BackupDone, TypeField) == Some(Str("success"));
  }

  /** The intended key tells alerts apart: two valid alerts share it only
      when their types are equal and their details render to the same
      text. The three types contain no colon and start with different
      letters, so the type is read back from the key's first character. */
  lemma IntendedKeySeparates(p1: Option<JsValue>, p2: Option<JsValue>)
    requires ValidAlert(p1) && ValidAlert(p2)
    requires AlertKey(p1.value).Some? && AlertKey(p1.value) == AlertKey(p2.value)
    ensures Property(p1.value, TypeField) == Property(p2.value, TypeField)
    ensures ToText(Property(p1.value, DetailsField).value) == ToText(Property(p2.value, DetailsField).value)
  {
    var t1 := Property(p1.value, TypeField).value.s;
    var t2 := Property(p2.value, TypeField).value.s;
    var d1 := ToText(Property(p1.value, DetailsField).value).value;
    var d2 := ToText(Property(p2.value, DetailsField).value).value;
    var k := AlertKey(p1.value).value;
    assert k == t1 + ":" + d1 && k == t2 + ":" + d2;
    assert t1 == t2 by {
      assert k[0] == t1[0] && k[0] == t2[0];
    }
    assert d1 == k[|t1| + 1..] && d2 == k[|t2| + 1..];
  }

  /** With the intended key, the same two alerts are both forwarded. */
  lemma IntendedDistinctAlertsBothForwarded(raw1: string, raw2: string, s1: bool, s2: bool)
    ensures HandleIntended(DedupCache.Empty, raw1, Some(ServiceFailure), 0, 3000, s1).ack == Forwarded
    ensures HandleIntended(HandleIntended(DedupCache.Empty, raw1, Some(ServiceFailure), 0, 3000, s1).cache,
                           raw2, Some(BackupDone), 10, 3000, s2).ack == Forwarded
  {
    ExampleAlertsValid();
    var c1 := HandleIntended(DedupCache.Empty, raw1, Some(ServiceFailure), 0, 3000, s1).cache;
    assert c1.recent == {AlertKey(ServiceFailure).value};
  }

  /** With the intended key, an alert stays suppressed until the timer
      phase reaches its acceptance time plus the delay, whatever other
      alerts arrive meanwhile, and is forwarded again after that. */
  lemma {:induction false} IntendedWindow(c: DedupCache.Cache, clock: int, raw: string, p: Option<JsValue>,
                                          at: int, evs: seq<DedupCache.Event>, window: int, s: bool, t: int)
    requires DedupCache.Valid(c, clock, window) && clock <= at
    requires ValidAlert(p) && AlertKey(p.value).Some? && AlertKey(p.value).value !in c.recent
    requires DedupCache.Chronological(evs, at)
    requires forall i :: 0 <= i < |evs| && evs[i].TimerPhase? ==> evs[i].at < at + Config.TimerDelay(window)
    requires t >= at + Config.TimerDelay(window)
    ensures HandleIntended(c, raw, p, at, window, s).ack == Forwarded
    ensures forall j, later :: 0 <= j <= |evs| ==>
      HandleIntended(DedupCache.Run(HandleIntended(c, raw, p, at, window, s).cache, evs[..j], window),
                     raw, p, later, window, s).ack == Duplicate
    ensures HandleIntended(DedupCache.Tick(DedupCache.Run(HandleIntended(c, raw, p, at, window, s).cache,
                                                          evs, window), t), raw, p, t, window, s).ack == Forwarded
  {
    DedupCache.WindowIsExact(c, clock, AlertKey(p.value).value, at, evs, window);
  }

  /** The example client's scenario under the default window: forwarded,
      suppressed when resent 1000 ms later, forwarded again when resent
      3100 ms after the first, once the timer phase has run. */
  lemma ClientScenario(raw: string, s: bool)
    ensures Config.WaitTime(None) == 3000
    ensures Handle(DedupCache.Empty, raw, Some(ServiceFailure), 0, 3000, s).ack == Forwarded
    ensures Handle(Handle(DedupCache.Empty, raw, Some(ServiceFailure), 0, 3000, s).cache,
                   raw, Some(ServiceFailure), 1000, 3000, s).ack == Duplicate
    ensures Handle(DedupCache.Tick(Handle(Handle(DedupCache.Empty, raw, Some(ServiceFailure), 0, 3000, s).cache,
                                          raw, Some(ServiceFailure), 1000, 3000, s).cache, 3100),
                   raw, Some(ServiceFailure), 3100, 3000, s).ack == Forwarded
  {
    Config.UnsetWaitTimeIsDefault();
    ExampleAlertsValid();
    var c1 := Handle(DedupCache.Empty, raw, Some(ServiceFailure), 0, 3000, s).cache;
    assert FrameKey in c1.recent;
    var c2 := Handle(c1, raw, Some(ServiceFailure), 1000, 3000, s).cache;
    assert c2 == c1;
    DedupCache.CheckPreservesValid(DedupCache.Empty, FrameKey, 0, 0, 3000);
    DedupCache.TickRemovesExactlyDue(c2, 0, 3100, 3000);
  }

  /** A valid alert whose details carry their own `toString` property. */
  const OwnToStringDetails := Obj(map[
    "type" := Str("error"),
    "details" := Obj(map["toString" := Num(0)])])

  /** Such an alert is forwarded as written, since its key is never
      rendered from it; with the intended key, rendering the details
      throws and the alert is answered as a processing error, leaving the
      cache as it was. */
  lemma OwnToStringDetailsRejected(c: DedupCache.Cache, raw: string, s: bool)
    ensures Handle(DedupCache.Empty, raw, Some(OwnToStringDetails), 0, 3000, s).ack == Forwarded
    ensures HandleIntended(c, raw, Some(OwnToStringDetails), 0, 3000, s).ack == ProcessingError
    ensures HandleIntended(c, raw, Some(OwnToStringDetails), 0, 3000, s).cache == c
  {
    assert Property(OwnToStringDetails, TypeField) == Some(Str("error"));
    assert Property(OwnToStringDetails, DetailsField) == Some(Obj(map["toString" := Num(0)]));
  }
}

=== FILE: js_values.dfy ===
/**
  The slice of JavaScript semantics the relay relies on: the values a
  `JSON.parse` call can produce (plus `undefined`), reading a named property,
  truthiness for `||` defaults, the string conversion a template literal
  performs, and `parseInt(s, 10)`.

  Numbers are restricted to integers: the relay never does arithmetic on a
  payload value, and the configured wait time is an integer by construction.
 */
module JsValues {
  import opened Wrappers

  datatype JsValue =
    | Undefined
    | Null
    | Bool(b: bool)
    | Num(n: int)
    | Str(s: string)
    | Arr(elems: seq<JsValue>)
    | Obj(fields: map<string, JsValue>)

  /** The three properties the relay reads off an alert. */
  datatype Field = TypeField | DetailsField | MessageField

  function FieldName(f: Field): string {
    match f
    case TypeField => "type"
    case DetailsField => "details"
    case MessageField => "message"
  }

  /** `v.name`. Reading a property of `undefined` or `null` throws a
      TypeError, modelled as `None`. Strings, numbers, booleans and arrays
      have no property called `type`, `details` or `message`, so reading one
      yields `undefined`; so does an object that lacks the key. */
  function Property(v: JsValue, f: Field): (r: Option<JsValue>)
    ensures r.None? <==> v.Undefined? || v.Null?
    ensures r.Some? && !v.Obj? ==> r.value == Undefined
  {
    match v
    case Undefined => None
    case Null => None
    case Obj(fields) =>
      if FieldName(f) in fields then Some(fields[FieldName(f)]) else Some(Undefined)
    case _ => Some(Undefined)
  }

  /** The five values a JSON document (plus `undefined`) can hold that
      `||` treats as false. */
  const FalsyValues: set<JsValue> := {Undefined, Null, Bool(false), Num(0), Str("")}

  /** ToBoolean, the test `a || b` applies to `a`: arrays and objects are
      always truthy, whatever they hold. */
  function Truthy(v: JsValue): (r: bool)
    ensures !r <==> v in FalsyValues
  {
    match v
    case Undefined => false
    case Null => false
    case Bool(b) => b
    case Num(n) => n != 0
    case Str(s) => s != ""
    case Arr(_) => true
    case Obj(_) => true
  }

  // ---------------------------------------------------------------------
  // Decimal digits
  // ---------------------------------------------------------------------

  predicate IsDigit(c: char) {
    '0' <= c <= '9'
  }

  function DigitChar(d: nat): (c: char)
    requires d < 10
    ensures IsDigit(c) && DigitValue(c) == d
  {
    (('0' as int) + d) as char
  }

  /** The value of a digit character (zero for any other character). */
  function DigitValue(c: char): (d: nat)
    ensures d < 10
  {
    if IsDigit(c) then (c as int) - ('0' as int) else 0
  }

  /** The decimal rendering of a natural number, without leading zeros. */
  function NatDecimal(n: nat): (r: string)
    ensures 0 < |r|
    ensures forall i :: 0 <= i < |r| ==> IsDigit(r[i])
    ensures |r| > 1 ==> r[0] != '0'
    decreases n
  {
    if n < 10 then [DigitChar(n)] else NatDecimal(n / 10) + [DigitChar(n % 10)]
  }

  /** How JavaScript renders an integral number as a string. */
  function Decimal(n: int): string {
    if n < 0 then "-" + NatDecimal(-n) else NatDecimal(n)
  }

  // ---------------------------------------------------------------------
  // String conversion, as `${v}` performs it
  // ---------------------------------------------------------------------

  /** The values whose string conversion throws. A parsed object's own
      `toString` property is never callable, so the conversion falls back
      to `valueOf`, which returns the object itself, and no primitive is
      reached: a TypeError. An array converts by joining its elements, so
      it throws when one of them does. */
  predicate Unprintable(v: JsValue)
    decreases v
  {
    match v
    case Obj(fields) => "toString" in fields
    case Arr(es) => exists i :: 0 <= i < |es| && Unprintable(es[i])
    case _ => false
  }

  /** `${v}`, `None` when the conversion throws. `undefined` and `null`
      print their names, arrays join their elements with commas and other
      plain objects print as `[object Object]`. */
  function ToText(v: JsValue): (r: Option<string>)
    ensures r.None? <==> Unprintable(v)
    ensures v.Str? ==> r == Some(v.s)
    ensures v.Num? ==> r == Some(Decimal(v.n))
    ensures v.Undefined? ==> r == Some("undefined")
    decreases v, if v.Arr? then |v.elems| + 1 else 0
  {
    match v
    case Undefined => Some("undefined")
    case Null => Some("null")
    case Bool(b) => Some(if b then "true" else "false")
    case Num(n) => Some(Decimal(n))
    case Str(s) => Some(s)
    case Arr(es) => JoinElements(v, |es|)
    case Obj(fields) => if "toString" in fields then None else Some("[object Object]")
  }

  /** `Array.prototype.join` over the first `n` elements of an array:
      their texts separated by commas, `undefined` and `null` elements
      printed as nothing; it throws when an element's conversion does. */
  function JoinElements(v: JsValue, n: nat): (r: Option<string>)
    requires v.Arr? && n <= |v.elems|
    ensures r.None? <==> exists i :: 0 <= i < n && Unprintable(v.elems[i])
    decreases v, n
  {
    if n == 0 then Some("")
    else
      var e := v.elems[n - 1];
      var last := if e.Undefined? || e.Null? then Some("") else ToText(e);
      if n == 1 then last
      else
        match (JoinElements(v, n - 1), last)
        case (Some(init), Some(t)) => Some(init + "," + t)
        case _ => None
  }

  // ---------------------------------------------------------------------
  // parseInt(s, 10)
  // ---------------------------------------------------------------------

  /** Space, tab, line feed, vertical tab, form feed, carriage return. */
  predicate IsWhitespace(c: char) {
    c == ' ' || (9 <= c as int <= 13)
  }

  /** The first position at or after `i` that does not hold white space. */
  function SkipSpace(s: string, i: nat): (j: nat)
    requires i <= |s|
    ensures i <= j <= |s|
    ensures j < |s| ==> !IsWhitespace(s[j])
    decreases |s| - i
  {
    if i < |s| && IsWhitespace(s[i]) then SkipSpace(s, i + 1) else i
  }

  /** The end of the run of digits that starts at `i`. */
  function DigitsEnd(s: string, i: nat): (j: nat)
    requires i <= |s|
    ensures i <= j <= |s|
    ensures forall k :: i <= k < j ==> IsDigit(s[k])
    ensures j < |s| ==> !IsDigit(s[j])
    decreases |s| - i
  {
    if i < |s| && IsDigit(s[i]) then DigitsEnd(s, i + 1) else i
  }

  /** The value of the digits `s[i..j]`, most significant first. */
  function DigitsValue(s: string, i: nat, j: nat): nat
    requires i <= j <= |s|
    decreases j - i
  {
    if i == j then 0 else DigitsValue(s, i, j - 1) * 10 + DigitValue(s[j - 1])
  }

  /** `parseInt(s, 10)`: skip leading white space, read an optional sign,
      then the longest run of decimal digits; `None` (NaN) when that run is
      empty. Whatever follows the digits is ignored. */
  function ParseInt(s: string): (r: Option<int>)
    ensures r.None? <==> var i := SkipSpace(s, 0); var start := SignEnd(s, i); DigitsEnd(s, start) == start
  {
    var i := SkipSpace(s, 0);
    var start := SignEnd(s, i);
    var end := DigitsEnd(s, start);
    var magnitude: int := DigitsValue(s, start, end);
    if end == start then None
    else if i < |s| && s[i] == '-' then Some(-magnitude)
    else Some(magnitude)
  }

  /** The position after an optional sign character at `i`. */
  function SignEnd(s: string, i: nat): (j: nat)
    requires i <= |s|
    ensures j == i || (i < |s| && j == i + 1 && (s[i] == '-' || s[i] == '+'))
    ensures j <= |s|
  {
    if i < |s| && (s[i] == '-' || s[i] == '+') then i + 1 else i
  }

  /** Reading back the rendering of an integer, whatever non-digit text
      follows it, gives the integer: `parseInt` inverts `Decimal`. */
  lemma ParseIntOfDecimal(n: int, rest: string)
    requires rest == [] || !IsDigit(rest[0])
    ensures ParseInt(Decimal(n) + rest) == Some(n)
  {
    var s := Decimal(n) + rest;
    var m: nat := if n < 0 then -n else n;
    var d := NatDecimal(m);
    var start := if n < 0 then 1 else 0;
    assert s[start..start + |d|] == d;
    assert SkipSpace(s, 0) == 0;
    assert SignEnd(s, 0) == start;
    assert DigitsEnd(s, start) == start + |d| by {
      assert start + |d| == |s| || s[start + |d|] == rest[0];
      DigitsEndAt(s, start, start + |d|);
    }
    assert DigitsValue(s, start, start + |d|) == m by {
      DigitsValueOfNatDecimal(s, start, m);
    }
  }

  /** A run of digits ended by a non-digit or by the end of the text is
      exactly what `DigitsEnd` measures. */
  lemma {:induction false} DigitsEndAt(s: string, i: nat, j: nat)
    requires i <= j <= |s|
    requires forall k :: i <= k < j ==> IsDigit(s[k])
    requires j < |s| ==> !IsDigit(s[j])
    ensures DigitsEnd(s, i) == j
    decreases j - i
  {
    if i < j {
      DigitsEndAt(s, i + 1, j);
    }
  }

  /** The digits of `NatDecimal(m)`, wherever they sit in a text, are worth `m`. */
  lemma {:induction false} DigitsValueOfNatDecimal(s: string, i: nat, m: nat)
    requires i + |NatDecimal(m)| <= |s|
    requires s[i..i + |NatDecimal(m)|] == NatDecimal(m)
    ensures DigitsValue(s, i, i + |NatDecimal(m)|) == m
    decreases m
  {
    var d := NatDecimal(m);
    var j := i + |d|;
    if m < 10 {
      assert s[i] == d[0];
    } else {
      var d' := NatDecimal(m / 10);
      assert d == d' + [DigitChar(m % 10)];
      assert d[..|d| - 1] == d';
      assert s[i..j - 1] == s[i..j][..|d| - 1];
      DigitsValueOfNatDecimal(s, i, m / 10);
      assert s[j - 1] == d[|d| - 1];
    }
  }

  /** The template-literal rendering of an integral number reads back as
      that number. */
  lemma NumberTextReadsBack(n: int)
    ensures ToText(Num(n)).Some? && ParseInt(ToText(Num(n)).value) == Some(n)
  {
    assert Decimal(n) + "" == Decimal(n);
    ParseIntOfDecimal(n, "");
  }
}

=== FILE: notify.dfy ===
/**
  `sendSlackAlert`: the notification built for a forwarded alert and the
  send to the Slack webhook, whose failures are caught and only logged.

  The webhook client is an opaque collaborator: whether it accepts the
  notification is an input. The "Date" field, the current time rendered in
  the server's locale, is not modelled.
 */
module Notify {
  import opened Wrappers
  import opened JsValues

  /** The colour of each alert type. */
  const ColorTable: map<string, string> := map["success" := "good", "warning" := "#f39c12", "error" := "danger"]

  /** `color[type] || "good"`: the colour listed for the type, and "good"
      for a type the table does not list. */
  function ColorFor(alertType: string): (r: string)
    ensures r in ColorTable.Values
    ensures alertType in ColorTable ==> r == ColorTable[alertType]
    ensures alertType !in ColorTable ==> r == "good"
  {
    if alertType in ColorTable && ColorTable[alertType] != "" then ColorTable[alertType]
    else
      assert ColorTable["success"] == "good";
      "good"
  }

  /** `toUpperCase` on one character, over ASCII letters. */
  function UpperAscii(c: char): (u: char)
    ensures 'a' <= c <= 'z' ==> 'A' <= u <= 'Z' && u as int == c as int - 32
    ensures !('a' <= c <= 'z') ==> u == c
  {
    if 'a' <= c <= 'z' then (c as int - 32) as char else c
  }

  /** `str.charAt(0).toUpperCase() + str.slice(1)`: the first character
      upper-cased and the rest unchanged; the empty string stays empty. */
  function CapitalizeFirstLetter(str: string): (r: string)
    ensures |r| == |str|
    ensures |str| > 0 ==> r[0] == UpperAscii(str[0]) && r[1..] == str[1..]
  {
    if str == "" then "" else [UpperAscii(str[0])] + str[1..]
  }

  /** Capitalizing twice is capitalizing once. */
  lemma CapitalizeIdempotent(str: string)
    ensures CapitalizeFirstLetter(CapitalizeFirstLetter(str)) == CapitalizeFirstLetter(str)
  {
  }

  /** `capitalizeFirstLetter(type) || "Success"`: the capitalized type, or
      "Success" when that is the empty string, which happens exactly when the
      type is empty. */
  function TypeLabel(alertType: string): (r: string)
    ensures r != ""
    ensures alertType != "" ==> r == CapitalizeFirstLetter(alertType)
    ensures alertType == "" ==> r == "Success"
  {
    var cap := CapitalizeFirstLetter(alertType);
    if cap != "" then cap else "Success"
  }

  /** `details || "Empty Details"`: a truthy value is kept as it is; every
      falsy one becomes the placeholder text. */
  function DetailsValue(details: JsValue): (r: JsValue)
    ensures Truthy(r)
    ensures Truthy(details) ==> r == details
    ensures !Truthy(details) ==> r == Str("Empty Details")
  {
    if Truthy(details) then details else Str("Empty Details")
  }

  /** The notification sent to Slack: its text, attachment colour and the
      "Type" and "Details" fields. */
  datatype Notification = Notification(text: JsValue, color: string, typeLabel: string, details: JsValue)

  /** The notification built from a parsed alert. Building it throws, and
      the send is skipped, when the alert is `undefined` or `null` or its
      type is not a string (`capitalizeFirstLetter` calls a string method on
      it). */
  function Compose(alert: JsValue): (r: Option<Notification>)
    ensures r.Some? <==> Property(alert, TypeField).Some? && Property(alert, TypeField).value.Str?
    ensures r.Some? ==>
      var t := Property(alert, TypeField).value.s;
      && r.value.text == Property(alert, MessageField).value
      && r.value.color == ColorFor(t)
      && r.value.typeLabel == TypeLabel(t)
      && r.value.details == DetailsValue(Property(alert, DetailsField).value)
  {
    match Property(alert, TypeField)
    case None => None
    case Some(t) =>
      if !t.Str? then None
      else Some(Notification(
        Property(alert, MessageField).value,
        ColorFor(t.s),
        TypeLabel(t.s),
        DetailsValue(Property(alert, DetailsField).value)))
  }

  /** What one call of `sendSlackAlert` did. */
  datatype SendOutcome =
    | Delivered(sent: Notification)
    | Rejected(attempted: Notification)
    | NotBuilt

  /** `sendSlackAlert(alert)` with a webhook that accepts or rejects what it
      is sent. Every failure is caught inside, so the call always completes
      normally; the outcome only records what happened. */
  function SendSlackAlert(alert: JsValue, sinkAccepts: bool): (r: SendOutcome)
    ensures r.NotBuilt? <==> Compose(alert).None?
    ensures r.Delivered? <==> Compose(alert).Some? && sinkAccepts
    ensures r.Delivered? ==> r.sent == Compose(alert).value
    ensures r.Rejected? ==> r.attempted == Compose(alert).value
  {
    match Compose(alert)
    case None => NotBuilt
    case Some(n) => if sinkAccepts then Delivered(n) else Rejected(n)
  }

  /** The three alert types get their own colours and labels. */
  lemma ValidTypeFields()
    ensures ColorFor("success") == "good" && TypeLabel("success") == "Success"
    ensures ColorFor("warning") == "#f39c12" && TypeLabel("warning") == "Warning"
    ensures ColorFor("error") == "danger" && TypeLabel("error") == "Error"
  {
    assert CapitalizeFirstLetter("success") == "Success";
    assert CapitalizeFirstLetter("warning") == "Warning";
    assert CapitalizeFirstLetter("error") == "Error";
  }
}

=== FILE: wrappers.dfy ===
/** The optional-value datatype shared by the other modules. */
module Wrappers {

  /** `None` stands for an absent value: a parse that yields nothing, or an
      expression that throws instead of producing a value. */
  datatype Option<+T> = None | Some(value: T)
}
